=== FILE: README.md ===
# Selenium HTML report parser — Dafny model

This project models the report parser of the Hudson Selenium HTML report plugin
(`TestResult.java`). The parser turns one report file into a `TestResult`
record: a result text, a total time, and pass/fail counts for tests and
commands. It knows two report dialects:

- the Selenium "structured" report. It is read with a strict SAX XML parser
  using the labels `result:`, `totalTime:`, `numTestPasses:`,
  `numTestFailures:`, `numCommandPasses:`, `numCommandFailures:` and
  `numCommandErrors:`;
- the logging-selenium report. It is read with the lenient htmlparser SAX
  adapter using the labels `last failed message:`, `test-duration [ms]:`,
  `commands processed:` and `failed commands:`.

Each field is found by a label lookup. A SAX handler (`ReadInfoHandler`)
keeps one "current text": the most recent character chunk, trimmed, or null
before the first chunk. Nothing clears it when a cell closes. The handler
watches the table-cell closes in document order. At the first cell close whose
current text is exactly the label it arms itself. At the next cell close it
captures the current text, whatever chunk that is, and stops the parse
early. Integer fields drop every non-digit and parse the rest as a Java `int`,
with a default. `parse` tries the structured dialect first. On a
`SAXException` it reads the same file again as a logging-selenium report.

## Modules

- `Outcomes` (`outcomes.dfy`): `Option` (Java's nullable reference) and
  `Result` (a value, or the exception that ended the computation).
- `JavaInt` (`java_int.dfy`): `Int32`, wrap-around addition, and Java's
  truncating division.
- `JavaString` (`java_string.dfy`): `String.trim`, the ASCII case folding used
  by `equalsIgnoreCase`, `replaceAll("\\D+", "")`, and `Integer.parseInt` on
  digit strings.
- `InfoHandler` (`info_handler.dfy`): the SAX handler. A document is the list
  of callbacks the reader delivers: `Characters(chunk)` and
  `EndElement(qName, localName)`. A second, independent reading of the same
  document is the list of the current text at each cell close (`Cells`), and
  the lookup is proved against it.
- `InfoParser` (`info_parser.dfy`): `parseFor`, `retrieve`, `getString` and
  both `getInt` overloads. A `Reading` is what one reader makes of the file.
  Either the reader cannot be set up, or it delivers callbacks and then ends
  in one of three ways: normally, with a format error, or with an I/O error.
- `TestResults` (`test_result.dfy`): the record, the two dialect extractors,
  the dispatcher and `getNumTestTotal`.

The model follows the code, including where its behaviour is easy to
misread:

- A structured report without a `result:` cell gets a null result.
  `getString` returns null and overwrites the `""` initialiser. It is not left
  as the empty string.
- Counts are not always non-negative. The structured counts use the -1
  sentinel.
- A malformed document does not always abort the lookup. A value cell
  captured before the malformed part stops the parse first, and the lookup
  succeeds.
- The lenient reader can fail with a format error. `createXMLReader` throws
  `SAXException` when the reader cannot be created.
- `getNumTestTotal` is `int` addition, so it can wrap around.
- A cell's "text" is not its content. It is the last chunk delivered before
  the cell closes. An empty value cell after the label cell therefore yields
  the label itself: `<td>result:</td><td></td>` gives `result:`. A value cell
  with nested markup yields only its last chunk:
  `<td>result:</td><td>1<b>2</b></td>` gives `2`.

## Model

| member | source | states |
|---|---|---|
| `JavaInt.Wrap32` | src/main/java/org/jvnet/hudson/plugins/seleniumhtmlreport/TestResult.java:57-59 | `int` addition wraps modulo 2^32 and is the plain sum whenever the sum fits in an `int` |
| `JavaInt.TruncDiv` | src/main/java/org/jvnet/hudson/plugins/seleniumhtmlreport/TestResult.java:82 | Java `/` rounds toward zero: the remainder is smaller than the divisor, takes the dividend's sign, and the quotient is no larger in magnitude than the dividend |
| `JavaInt.TruncDivSmall` | src/main/java/org/jvnet/hudson/plugins/seleniumhtmlreport/TestResult.java:82 | for non-negative milliseconds the division agrees with floor division, and -1 / 1000 is 0 (not Dafny's -1) |
| `JavaString.Trim` | src/main/java/org/jvnet/hudson/plugins/seleniumhtmlreport/TestResult.java:220 | the chunk is blanks (chars up to U+0020), then the result, then blanks, and the result neither starts nor ends with a blank |
| `JavaString.TrimIdempotent` | src/main/java/org/jvnet/hudson/plugins/seleniumhtmlreport/TestResult.java:220 | trimming a trimmed text changes nothing |
| `JavaString.StripNonDigits` | src/main/java/org/jvnet/hudson/plugins/seleniumhtmlreport/TestResult.java:149 | the result of deleting `\D+` consists of ASCII digits only and is no longer than the input |
| `JavaString.StripNonDigitsKeepsDigits` | src/main/java/org/jvnet/hudson/plugins/seleniumhtmlreport/TestResult.java:149 | every digit survives as often as it occurs, and no other character survives |
| `JavaString.StripNonDigitsConcat` | src/main/java/org/jvnet/hudson/plugins/seleniumhtmlreport/TestResult.java:149 | stripping distributes over concatenation, so the digits keep their order |
| `JavaString.StripNonDigitsFixes` | src/main/java/org/jvnet/hudson/plugins/seleniumhtmlreport/TestResult.java:149 | a digit string is left unchanged; a text without digits becomes empty |
| `JavaString.ParseDigits` | src/main/java/org/jvnet/hudson/plugins/seleniumhtmlreport/TestResult.java:150-151 | `Integer.parseInt` of a digit string yields the digits' decimal value, and raises `NumberFormatException` exactly when the string is empty or its value exceeds `Integer.MAX_VALUE` |
| `JavaString.ParseDigitsRoundTrip` | src/main/java/org/jvnet/hudson/plugins/seleniumhtmlreport/TestResult.java:150-151 | parsing the decimal spelling of n gives n back exactly when n fits in an `int`, and otherwise raises `NumberFormatException` |
| `InfoHandler.NewHandler` | src/main/java/org/jvnet/hudson/plugins/seleniumhtmlreport/TestResult.java:188-196 | a new handler looks for the given label, has no text yet (null), and is not armed |
| `InfoHandler.OnCharacters` | src/main/java/org/jvnet/hudson/plugins/seleniumhtmlreport/TestResult.java:219-221 | a chunk replaces the current text with a non-null text that is the chunk stripped of its leading and trailing blanks; the label and the armed flag are untouched |
| `InfoHandler.OnEndElement` | src/main/java/org/jvnet/hudson/plugins/seleniumhtmlreport/TestResult.java:203-216 | a non-cell close changes nothing; a cell close breaks the parse exactly when armed, handing over the current text; it dereferences null exactly when unarmed before any text; an unarmed cell close whose text equals the label arms the flag, and the flag changes in no other way; the text is never changed |
| `InfoHandler.CellCloseNames` | src/main/java/org/jvnet/hudson/plugins/seleniumhtmlreport/TestResult.java:204 | a close is a cell close iff `qName` is `td` or `localName` is `td`, `tD`, `Td` or `TD` |
| `JavaString.EqualsIgnoreCaseLowers` | src/main/java/org/jvnet/hudson/plugins/seleniumhtmlreport/TestResult.java:204 | two texts are equal ignoring case iff their lower-case forms are equal; the relation is reflexive and symmetric |
| `InfoHandler.RunStopsAtCellClose` | src/main/java/org/jvnet/hudson/plugins/seleniumhtmlreport/TestResult.java:178-182 | the reader's `parse` feeds callbacks until the handler breaks or crashes: a run that stops does so at some cell close k, every callback before k is read without stopping, and nothing after k changes the outcome; without a cell close the whole input is read |
| `InfoHandler.RunFollowsCells` | src/main/java/org/jvnet/hudson/plugins/seleniumhtmlreport/TestResult.java:203-221 | feeding the callbacks to the handler is the same as scanning the current text at each cell close in order |
| `InfoHandler.CellScanSpec` | src/main/java/org/jvnet/hudson/plugins/seleniumhtmlreport/TestResult.java:203-216 | scanning the cells captures exactly the cell after the first label cell, and crashes exactly when a text-less cell comes before any label cell |
| `InfoHandler.CellsKeepText` | src/main/java/org/jvnet/hudson/plugins/seleniumhtmlreport/TestResult.java:203-221 | once a chunk has been seen, every later cell has text |
| `InfoHandler.LookupFindsValueCell` | src/main/java/org/jvnet/hudson/plugins/seleniumhtmlreport/TestResult.java:203-216 | from a fresh handler, the lookup captures the current text at the cell close right after the first cell close whose current text equals the label; it crashes iff a cell closes before any text; a captured text is never null; without a label cell, or with the label in the last cell, nothing is captured |
| `InfoHandler.CaptureIsFinal` | src/main/java/org/jvnet/hudson/plugins/seleniumhtmlreport/TestResult.java:205-208 | after the value cell is captured, no later callback can change the outcome |
| `InfoHandler.LastChunkWins` | src/main/java/org/jvnet/hudson/plugins/seleniumhtmlreport/TestResult.java:219-221 | of two consecutive chunks only the second matters, anywhere in the document |
| `InfoHandler.EmptyValueCellRepeatsLabel` | src/main/java/org/jvnet/hudson/plugins/seleniumhtmlreport/TestResult.java:203-221 | a label cell followed by an empty cell captures the label itself, because a cell close does not clear the text |
| `InfoHandler.ValueCellKeepsLastChunk` | src/main/java/org/jvnet/hudson/plugins/seleniumhtmlreport/TestResult.java:203-221 | a value cell holding two chunks and a nested element close captures only the trimmed last chunk |
| `InfoParser.ParseFor` | src/main/java/org/jvnet/hudson/plugins/seleniumhtmlreport/TestResult.java:171-247 | `InfoParser.parseFor` and `HtmlInfoParser.parseFor` in one: only the strict parser can fail with a configuration error; a successful lookup means the reader delivered the document |
| `InfoParser.Retrieve` | src/main/java/org/jvnet/hudson/plugins/seleniumhtmlreport/TestResult.java:163-169 | a configuration failure never escapes; if the strict parser cannot be set up the lookup is an I/O error, and if the lenient reader cannot be created it is a format error |
| `InfoParser.RetrieveFindsValueCell` | src/main/java/org/jvnet/hudson/plugins/seleniumhtmlreport/TestResult.java:171-184 | for a delivered document, the lookup returns v iff v is the current text at the cell close right after the first cell close whose current text is the label |
| `InfoParser.RetrieveCrashesOnTextlessCell` | src/main/java/org/jvnet/hudson/plugins/seleniumhtmlreport/TestResult.java:203-210 | the lookup fails with a null dereference iff the document's first cell closes before any character data |
| `InfoParser.RetrieveFindsNothing` | src/main/java/org/jvnet/hudson/plugins/seleniumhtmlreport/TestResult.java:171-184 | the lookup returns null iff the document ends normally, no cell closes before text, and the label has no value cell (missing, or in the last cell) |
| `InfoParser.ValueCellHasText` | src/main/java/org/jvnet/hudson/plugins/seleniumhtmlreport/TestResult.java:203-221 | the text of a value cell is never null |
| `InfoParser.CapturedIgnoresEnding` | src/main/java/org/jvnet/hudson/plugins/seleniumhtmlreport/TestResult.java:178-183 | once the value cell is captured, a malformed or unreadable rest of the document makes no difference and the lookup succeeds |
| `InfoParser.GetString` | src/main/java/org/jvnet/hudson/plugins/seleniumhtmlreport/TestResult.java:138-140 | `getString` never reports a configuration failure and succeeds only on a delivered document |
| `InfoParser.Coerce` | src/main/java/org/jvnet/hudson/plugins/seleniumhtmlreport/TestResult.java:148-156 | the coerced value is the default or lies in [0, 2^31-1]; a plain decimal text in range reads as its value; an overflowing one reads as the default; a text without any digit reads as the default |
| `InfoParser.CoerceSeesOnlyDigits` | src/main/java/org/jvnet/hudson/plugins/seleniumhtmlreport/TestResult.java:148-150 | every text reads exactly as the sequence of its digits, whatever non-digits surround or separate them |
| `InfoParser.CoerceRoundTrip` | src/main/java/org/jvnet/hudson/plugins/seleniumhtmlreport/TestResult.java:148-151 | every `int` n >= 0 written in decimal reads back as n |
| `InfoParser.CoerceIgnoresNonDigits` | src/main/java/org/jvnet/hudson/plugins/seleniumhtmlreport/TestResult.java:149-150 | any digit-free text before or after a number is ignored |
| `InfoParser.CoerceOverflow` | src/main/java/org/jvnet/hudson/plugins/seleniumhtmlreport/TestResult.java:150-155 | a value above `Integer.MAX_VALUE` gives the default |
| `InfoParser.CoerceSeparatedNumber` | src/main/java/org/jvnet/hudson/plugins/seleniumhtmlreport/TestResult.java:148-150 | `"1,234 ms"` reads 1234 |
| `InfoParser.CoerceWithoutDigits` | src/main/java/org/jvnet/hudson/plugins/seleniumhtmlreport/TestResult.java:148-155 | `"n/a"` reads the default |
| `InfoParser.CoerceSignAndPoint` | src/main/java/org/jvnet/hudson/plugins/seleniumhtmlreport/TestResult.java:148-150 | `"-12.5"` loses its sign and its point and reads 125 |
| `InfoParser.GetInt` | src/main/java/org/jvnet/hudson/plugins/seleniumhtmlreport/TestResult.java:142-157 | fails exactly when the lookup fails, with the same exception; an absent value gives the default; a found text gives that text coerced with the same default; a result is always the default or in [0, 2^31-1] |
| `InfoParser.GetIntOrSentinel` | src/main/java/org/jvnet/hudson/plugins/seleniumhtmlreport/TestResult.java:159-161 | the one-argument `getInt` is `getInt` with default -1: it fails exactly when the lookup fails, with the same exception; an absent value gives -1; a found text gives the text coerced with -1; every result is -1 or a non-negative `int` |
| `TestResults.NumTestTotal` | src/main/java/org/jvnet/hudson/plugins/seleniumhtmlreport/TestResult.java:57-59 | the total is passes plus failures modulo 2^32, and exactly their sum when that fits in an `int` |
| `TestResults.NumTestTotalWraps` | src/main/java/org/jvnet/hudson/plugins/seleniumhtmlreport/TestResult.java:57-59 | `Integer.MAX_VALUE` passes plus one failure total `Integer.MIN_VALUE` |
| `TestResults.ParseStructured` | src/main/java/org/jvnet/hudson/plugins/seleniumhtmlreport/TestResult.java:75-88 | no configuration failure escapes; a structured record carries the requested file name and the raw `result:` lookup; each of its five counts is -1 or a non-negative `int`; its total time is in [0, 2^31-1 div 1000] |
| `TestResults.StructuredLookupChain` | src/main/java/org/jvnet/hudson/plugins/seleniumhtmlreport/TestResult.java:81-88 | the structured record exists iff each of the seven lookups completes, and otherwise carries the exception of the earliest failing one, label by label |
| `TestResults.StructuredFailsAtFirstFailingLookup` | src/main/java/org/jvnet/hudson/plugins/seleniumhtmlreport/TestResult.java:81-87 | the structured record exists iff all seven lookups complete; otherwise the exception is that of the first lookup to fail |
| `TestResults.StructuredFieldsFromLookups` | src/main/java/org/jvnet/hudson/plugins/seleniumhtmlreport/TestResult.java:81-87 | each structured count is -1 when its label has no value cell and the coerced cell text otherwise; the result text is the raw lookup, null when the label is missing |
| `TestResults.StructuredTotalTimeSeconds` | src/main/java/org/jvnet/hudson/plugins/seleniumhtmlreport/TestResult.java:82 | the total time is the `totalTime:` value read by `getInt` divided by 1000 with truncation: a missing value gives 0 seconds (not -1), and a read value of ms milliseconds gives ms div 1000 seconds |
| `TestResults.OnlyTestPassesFound` | src/main/java/org/jvnet/hudson/plugins/seleniumhtmlreport/TestResult.java:81-88 | with only `numTestPasses:` present, reading `7`, the record has 7 passes, -1 for every other count, a null result and a total time of 0 |
| `TestResults.ParseLoggingSeleniumReport` | src/main/java/org/jvnet/hudson/plugins/seleniumhtmlreport/TestResult.java:98-122 | no configuration failure escapes; a logging-selenium record carries the requested file name and a non-null result; it has exactly one passed test, no failed test and no command errors; failed commands are non-negative; commands processed and duration are -1 or non-negative |
| `TestResults.LoggingLookupChain` | src/main/java/org/jvnet/hudson/plugins/seleniumhtmlreport/TestResult.java:105-111 | the logging-selenium record exists iff each of the four lookups completes, and otherwise carries the exception of the earliest failing one, label by label |
| `TestResults.LoggingFailsAtFirstFailingLookup` | src/main/java/org/jvnet/hudson/plugins/seleniumhtmlreport/TestResult.java:104-111 | the logging-selenium record exists iff all four lookups complete; otherwise the exception is that of the first lookup to fail |
| `TestResults.LoggingFieldsFromLookups` | src/main/java/org/jvnet/hudson/plugins/seleniumhtmlreport/TestResult.java:105-111 | an absent failure message reads "OK" and a present one, even empty, is kept; the duration is kept in milliseconds with the -1 default; commands processed default to -1; failed commands default to 0 |
| `TestResults.LoggingTotalIsOne` | src/main/java/org/jvnet/hudson/plugins/seleniumhtmlreport/TestResult.java:112-120 | every logging-selenium record totals exactly one test |
| `TestResults.Parse` | src/main/java/org/jvnet/hudson/plugins/seleniumhtmlreport/TestResult.java:73-93 | the record always names the requested file and is the structured or the logging-selenium record of that file; a structured record, when there is one, is the answer; no configuration failure escapes |
| `TestResults.FormatErrorFallsBack` | src/main/java/org/jvnet/hudson/plugins/seleniumhtmlreport/TestResult.java:89-92 | a format error from any structured lookup (the earlier ones having completed) makes the outcome exactly the logging-selenium reading of the same file |
| `TestResults.OtherFaultsPropagate` | src/main/java/org/jvnet/hudson/plugins/seleniumhtmlreport/TestResult.java:73-93 | an I/O error or a null dereference from a structured lookup propagates without a fallback |
| `TestResults.UnconfigurableStrictParser` | src/main/java/org/jvnet/hudson/plugins/seleniumhtmlreport/TestResult.java:163-169 | a strict parser that cannot be configured makes `parse` fail with an I/O error, and the lenient reader is never tried |
| `TestResults.UnavailableHtmlReader` | src/main/java/org/jvnet/hudson/plugins/seleniumhtmlreport/TestResult.java:89-91 | a structured document whose first lookup is malformed, with a lenient reader that cannot be created, makes `parse` fail with a format error |
| `TestResults.StrictParserCreationFails` | src/main/java/org/jvnet/hudson/plugins/seleniumhtmlreport/TestResult.java:176 | a `SAXException` from `newSAXParser` is a format error before any callback, so `parse` gives the logging-selenium reading of the file |
| `TestResults.MalformedTailAfterAllFields` | src/main/java/org/jvnet/hudson/plugins/seleniumhtmlreport/TestResult.java:178-183 | if all seven structured value cells come before the malformed or unreadable part, the structured record stands and equals that of the well-formed prefix |

## Left out

- Logging through the `BuildListener` is left out. This covers "parsing
  resultFile", "Can`t parse … as …" and "… not found in result file!". These
  lines are diagnostics only and do not change any outcome.
- The XML parser factory and the htmlparser reader are foreign libraries. A
  reader is replaced by the callback list it delivers for the file plus how
  that delivery ends. Each lookup re-reads the file, and the model assumes
  the file does not change between the reads.
- The file path built by `getReportFileFor` and the `AbstractBuild`
  parameter are file plumbing. The model takes the file as the two readings
  directly.
- SAX callbacks other than `characters` and `endElement` are left out as
  callbacks. `ReadInfoHandler` inherits them from `DefaultHandler`. Most do
  nothing there, but `fatalError` rethrows the parser's `SAXParseException`.
  That rethrow is how a malformed strict document ends the parse, and the
  model represents it as the `Malformed` ending of the reading.
- A `SAXException` thrown by `newSAXParser` (line 176) happens before any
  callback. The model represents it as the reading `Delivered([], Malformed)`,
  which falls back to the logging-selenium reader like any other format
  error. `ReaderUnavailable` stands for the `ParserConfigurationException`
  of the strict factory and the `SAXException` of `createXMLReader`.
- `Serializable` and the Java regex engine are left out. `\D+` removal is
  modelled as deleting everything except ASCII `0`-`9`.
- `JavaString.EqualsIgnoreCase`: folds ASCII letters only, whereas Java
  folds all of Unicode. The only comparison made is against `td`, and the
  model assumes that no non-ASCII character folds to `t` or `d`.
- The null dereference is modelled as its own exception, `NullDereference`.
  It happens when a `td` closes before any character data. It is not a
  `SAXException`, so it does not trigger the fallback.
- `JavaString.ParseDigits`: covers `Integer.parseInt` only on strings of
  ASCII digits (the empty one included). Signs and other digit sets never
  reach it, because every non-digit has been deleted by then.
- `InfoParser.GetString`: the contract is as weak as stated in the table. The
  full characterisation of its result is given by
  `InfoParser.RetrieveFindsValueCell`, `InfoParser.RetrieveCrashesOnTextlessCell`
  and `InfoParser.RetrieveFindsNothing`, because `getString` is `retrieve`
  unchanged.

=== FILE: info_handler.dfy ===
/** The SAX content handler that looks up one labelled table cell
    (`ReadInfoHandler` in TestResult.java), driven by the sequence of
    callbacks a reader delivers for one document. */
module InfoHandler {
  import opened Outcomes
  import opened JavaString

  /** The callbacks the handler reacts to. The other callbacks are inherited
      from `DefaultHandler`: most do nothing, and `fatalError` rethrows the
      parser's exception, which a reading represents as its `Malformed`
      ending rather than as a callback. */
  datatype Event =
    | Characters(chunk: string)
    | EndElement(qName: string, localName: string)

  /** An element close counts as a table-cell close when its qualified name
      is exactly `td` or its local name is `td` in any letter case. */
  predicate IsCellClose(e: Event) {
    e.EndElement? && (e.qName == "td" || EqualsIgnoreCase(e.localName, "td"))
  }

  /** The handler's fields: the label it looks for, the trimmed text of the
      most recent character chunk (null before the first one), and the flag
      armed once the label cell has closed. */
  datatype Handler = Handler(infoName: string, characters: Option<string>, nextIsInfo: bool)

  function NewHandler(infoName: string): (h: Handler)
    ensures h.infoName == infoName && h.characters.None? && !h.nextIsInfo
  {
    Handler(infoName, None, false)
  }

  /** What a callback does: carry on with a new handler state, stop the
      parse with the captured cell text (`BreakParsingException`), or
      dereference the still-null text (`NullPointerException`). */
  datatype Signal = Continue(next: Handler) | Break(info: Option<string>) | NullPointer

  /** `characters`: the text so far is replaced by the trimmed chunk. */
  function OnCharacters(h: Handler, chunk: string): (h': Handler)
    ensures h'.infoName == h.infoName && h'.nextIsInfo == h.nextIsInfo
    ensures h'.characters.Some? && IsTrimmed(h'.characters.value)
    ensures exists i :: PaddedAt(chunk, h'.characters.value, i)
  {
    h.(characters := Some(Trim(chunk)))
  }

  /** `endElement`: a cell close either captures the current text (when
      armed), crashes on null text, arms the flag (text equals the label),
      or is skipped; any other close leaves the handler as it was. */
  function OnEndElement(h: Handler, qName: string, localName: string): (s: Signal)
    ensures !IsCellClose(EndElement(qName, localName)) ==> s == Continue(h)
    ensures s.Break? <==> IsCellClose(EndElement(qName, localName)) && h.nextIsInfo
    ensures s.Break? ==> s.info == h.characters
    ensures s.NullPointer? <==> IsCellClose(EndElement(qName, localName)) && !h.nextIsInfo && h.characters.None?
    ensures s.Continue? ==> s.next.infoName == h.infoName && s.next.characters == h.characters
    ensures s.Continue? && s.next.nextIsInfo != h.nextIsInfo ==>
              s.next.nextIsInfo && h.characters == Some(h.infoName)
    ensures IsCellClose(EndElement(qName, localName)) && !h.nextIsInfo && h.characters == Some(h.infoName) ==>
              s == Continue(h.(nextIsInfo := true))
  {
    if !IsCellClose(EndElement(qName, localName)) then Continue(h)
    else if h.nextIsInfo then Break(h.characters)
    else if h.characters.None? then NullPointer
    else if h.characters.value == h.infoName then Continue(h.(nextIsInfo := true))
    else Continue(h)
  }

  function OnEvent(h: Handler, e: Event): Signal {
    match e
    case Characters(chunk) => Continue(OnCharacters(h, chunk))
    case EndElement(qName, localName) => OnEndElement(h, qName, localName)
  }

  /** How feeding a callback sequence to the handler ends. */
  datatype Scan = Captured(info: Option<string>) | Exhausted | Crashed

  /** The reader's `parse` driving the handler: the callbacks are fed in
      order until one breaks the parse (`BreakParsingException`, caught by
      `parseFor`) or dereferences null. Either can only happen at a cell
      close. */
  function Run(events: seq<Event>, h: Handler): Scan
    decreases |events|
  {
    if |events| == 0 then Exhausted
    else match OnEvent(h, events[0])
      case Continue(h') => Run(events[1..], h')
      case Break(info) => Captured(info)
      case NullPointer => Crashed
  }

  /** Running a prefix whose first callback lets the parse carry on is
      running the rest of that prefix from the next state. */
  lemma RunPrefixAfterStep(events: seq<Event>, h: Handler, h': Handler, n: nat)
    requires 1 <= n <= |events| && OnEvent(h, events[0]) == Continue(h')
    ensures Run(events[..n], h) == Run(events[1..][..n - 1], h')
  {
    assert events[..n][0] == events[0];
    assert events[..n][1..] == events[1..][..n - 1];
  }

  /** The parse only stops early at a cell close: a run that captures or
      crashes does so at some cell close `k`, having read every callback
      before it without stopping, and nothing after `k` is read. A run over
      callbacks without any cell close always reaches the end of the input. */
  lemma {:induction false} RunStopsAtCellClose(events: seq<Event>, h: Handler)
    ensures !Run(events, h).Exhausted? ==>
              exists k :: && 0 <= k < |events| && IsCellClose(events[k])
                          && Run(events[..k], h).Exhausted?
                          && Run(events[..k + 1], h) == Run(events, h)
    decreases |events|
  {
    if |events| > 0 {
      match OnEvent(h, events[0])
      case Continue(h') =>
        RunStopsAtCellClose(events[1..], h');
        if !Run(events[1..], h').Exhausted? {
          var k :| && 0 <= k < |events[1..]| && IsCellClose(events[1..][k])
                   && Run(events[1..][..k], h').Exhausted?
                   && Run(events[1..][..k + 1], h') == Run(events[1..], h');
          RunPrefixAfterStep(events, h, h', k + 1);
          RunPrefixAfterStep(events, h, h', k + 2);
          assert IsCellClose(events[k + 1]);
        }
      case Break(_) =>
        assert events[..1][1..] == [];
      case NullPointer =>
        assert events[..1][1..] == [];
    }
  }

  // ---------------------------------------------------------------------
  // Reference view: the document as the current text at each cell close.
  // ---------------------------------------------------------------------

  /** The current text at every cell close, in document order, when the
      current text before the first callback is `current`. A cell's "text" is
      the trimmed last character chunk delivered before it closes, wherever
      that chunk stood: nothing clears it at a cell close, so an empty cell
      repeats the previous cell's text, and a cell with nested markup keeps
      only its last chunk. It is null only before the first chunk. */
  function Cells(events: seq<Event>, current: Option<string>): seq<Option<string>>
    decreases |events|
  {
    if |events| == 0 then []
    else match events[0]
      case Characters(chunk) => Cells(events[1..], Some(Trim(chunk)))
      case EndElement(_, _) =>
        if IsCellClose(events[0]) then [current] + Cells(events[1..], current)
        else Cells(events[1..], current)
  }

  /** Cell `k` is the first cell whose text is the label, and every cell
      before it has text. */
  ghost predicate LabelFirstAt(cells: seq<Option<string>>, name: string, k: int) {
    && 0 <= k < |cells|
    && cells[k] == Some(name)
    && forall m :: 0 <= m < k ==> cells[m].Some? && cells[m] != Some(name)
  }

  /** `v` is the text of the cell right after the first label cell. */
  ghost predicate ValueCell(cells: seq<Option<string>>, name: string, v: Option<string>) {
    exists k :: LabelFirstAt(cells, name, k) && k + 1 < |cells| && cells[k + 1] == v
  }

  /** Some cell before any label cell has no text at all. */
  ghost predicate NullBeforeLabel(cells: seq<Option<string>>, name: string) {
    exists k :: 0 <= k < |cells| && cells[k].None? && forall m :: 0 <= m < k ==> cells[m] != Some(name)
  }

  /** The cell-by-cell reading of the handler. */
  function CellScan(cells: seq<Option<string>>, name: string, armed: bool): Scan
    decreases |cells|
  {
    if |cells| == 0 then Exhausted
    else if armed then Captured(cells[0])
    else if cells[0].None? then Crashed
    else if cells[0].value == name then CellScan(cells[1..], name, true)
    else CellScan(cells[1..], name, false)
  }

  /** Character chunks and other element closes only matter through the
      current text they leave for the next cell close. */
  lemma {:induction false} RunFollowsCells(events: seq<Event>, h: Handler)
    ensures Run(events, h) == CellScan(Cells(events, h.characters), h.infoName, h.nextIsInfo)
    decreases |events|
  {
    if |events| > 0 {
      var cells := Cells(events, h.characters);
      match events[0]
      case Characters(chunk) =>
        RunFollowsCells(events[1..], OnCharacters(h, chunk));
      case EndElement(q, l) =>
        if IsCellClose(events[0]) {
          assert cells[1..] == Cells(events[1..], h.characters);
          if !h.nextIsInfo && h.characters.Some? {
            RunFollowsCells(events[1..], h.(nextIsInfo := h.characters.value == h.infoName));
          }
        } else {
          RunFollowsCells(events[1..], h);
        }
    }
  }

  /** The unarmed cell scan, stated without recursion: it captures the cell
      after the first label cell, crashes on a text-less cell met before
      the label, and otherwise runs out of cells. */
  lemma {:induction false} CellScanSpec(cells: seq<Option<string>>, name: string)
    ensures CellScan(cells, name, false) == Crashed <==> NullBeforeLabel(cells, name)
    ensures forall v :: CellScan(cells, name, false) == Captured(v) <==> ValueCell(cells, name, v)
    decreases |cells|
  {
    if |cells| == 0 {
      return;
    }
    if cells[0].None? {
      assert !LabelFirstAt(cells, name, 0);
      assert forall k :: 0 < k < |cells| ==> !LabelFirstAt(cells, name, k);
      assert 0 <= 0 < |cells| && cells[0].None?;
      return;
    }
    if cells[0] == Some(name) {
      assert LabelFirstAt(cells, name, 0);
      assert forall k :: LabelFirstAt(cells, name, k) ==> k == 0;
      assert !NullBeforeLabel(cells, name) by {
        forall k | 0 <= k < |cells| && cells[k].None?
          ensures !(forall m :: 0 <= m < k ==> cells[m] != Some(name))
        {
          assert cells[0] == Some(name);
        }
      }
      return;
    }
    var tail := cells[1..];
    CellScanSpec(tail, name);
    // Indices shift by one between `cells` and `tail`.
    forall k | 0 <= k
      ensures LabelFirstAt(cells, name, k + 1) <==> LabelFirstAt(tail, name, k)
    {
      if LabelFirstAt(tail, name, k) {
        forall m | 0 <= m < k + 1
          ensures cells[m].Some? && cells[m] != Some(name)
        {
          if m > 0 {
            assert cells[m] == tail[m - 1];
          }
        }
      }
    }
    assert !LabelFirstAt(cells, name, 0);
    forall v
      ensures ValueCell(cells, name, v) <==> ValueCell(tail, name, v)
    {
      if ValueCell(cells, name, v) {
        var k :| LabelFirstAt(cells, name, k) && k + 1 < |cells| && cells[k + 1] == v;
        assert LabelFirstAt(tail, name, k - 1);
        assert tail[k] == v;
      }
      if ValueCell(tail, name, v) {
        var k :| LabelFirstAt(tail, name, k) && k + 1 < |tail| && tail[k + 1] == v;
        assert LabelFirstAt(cells, name, k + 1);
        assert cells[k + 2] == v;
      }
    }
    if NullBeforeLabel(cells, name) {
      var k :| 0 <= k < |cells| && cells[k].None? && forall m :: 0 <= m < k ==> cells[m] != Some(name);
      assert k > 0;
      assert tail[k - 1].None?;
      assert forall m :: 0 <= m < k - 1 ==> tail[m] == cells[m + 1];
    }
    if NullBeforeLabel(tail, name) {
      var k :| 0 <= k < |tail| && tail[k].None? && forall m :: 0 <= m < k ==> tail[m] != Some(name);
      assert cells[k + 1].None?;
      forall m | 0 <= m < k + 1
        ensures cells[m] != Some(name)
      {
        if m > 0 {
          assert cells[m] == tail[m - 1];
        }
      }
    }
  }

  /** A cell with text is followed only by cells with text. */
  ghost predicate TextPersists(cells: seq<Option<string>>) {
    forall i, j :: 0 <= i < j < |cells| && cells[i].Some? ==> cells[j].Some?
  }

  ghost predicate AllText(cells: seq<Option<string>>) {
    forall i :: 0 <= i < |cells| ==> cells[i].Some?
  }

  /** Once some text has been seen, every later cell has text. */
  lemma {:induction false} CellsKeepText(events: seq<Event>, current: Option<string>)
    ensures TextPersists(Cells(events, current))
    ensures current.Some? ==> AllText(Cells(events, current))
    decreases |events|
  {
    if |events| > 0 {
      match events[0]
      case Characters(chunk) =>
        CellsKeepText(events[1..], Some(Trim(chunk)));
      case EndElement(_, _) =>
        CellsKeepText(events[1..], current);
        var cells := Cells(events, current);
        var rest := Cells(events[1..], current);
        if IsCellClose(events[0]) {
          assert cells == [current] + rest;
          forall i, j | 0 <= i < j < |cells| && cells[i].Some?
            ensures cells[j].Some?
          {
            assert cells[j] == rest[j - 1];
            if i > 0 {
              assert cells[i] == rest[i - 1];
            }
          }
        } else {
          assert cells == rest;
        }
    }
  }

  /** The lookup, from a fresh handler, in terms of the document's cells: it
      captures the text current at the cell close right after the first cell
      close whose text is exactly the label; it crashes exactly when a cell closes before any
      character data; otherwise (no label cell, or the label cell is the last
      cell) it runs to the end of the input. A captured text is never null. */
  lemma LookupFindsValueCell(events: seq<Event>, name: string)
    ensures var cells := Cells(events, None);
            Run(events, NewHandler(name)) == Crashed <==> |cells| > 0 && cells[0].None?
    ensures var cells := Cells(events, None);
            forall v :: Run(events, NewHandler(name)) == Captured(Some(v)) <==> ValueCell(cells, name, Some(v))
    ensures Run(events, NewHandler(name)) != Captured(None)
  {
    var cells := Cells(events, None);
    RunFollowsCells(events, NewHandler(name));
    CellScanSpec(cells, name);
    CellsKeepText(events, None);
    if |cells| > 0 && cells[0].None? {
      assert NullBeforeLabel(cells, name) by {
        assert 0 <= 0 < |cells| && cells[0].None?;
      }
    }
  }

  /** Early exit: after the value cell is captured, nothing that follows in
      the input can change the outcome. */
  lemma {:induction false} CaptureIsFinal(events: seq<Event>, rest: seq<Event>, h: Handler)
    requires Run(events, h).Captured?
    ensures Run(events + rest, h) == Run(events, h)
    decreases |events|
  {
    var all := events + rest;
    assert all[0] == events[0];
    assert all[1..] == events[1..] + rest;
    var signal := OnEvent(h, events[0]);
    if signal.Continue? {
      CaptureIsFinal(events[1..], rest, signal.next);
      assert Run(all, h) == Run(all[1..], signal.next);
    }
  }

  /** Only the last of several consecutive character chunks matters: an
      earlier chunk never influences the lookup. */
  lemma {:induction false} LastChunkWins(before: seq<Event>, a: string, b: string, after: seq<Event>, h: Handler)
    ensures Run(before + [Characters(a), Characters(b)] + after, h)
         == Run(before + [Characters(b)] + after, h)
    decreases |before|
  {
    var long := before + [Characters(a), Characters(b)] + after;
    var short := before + [Characters(b)] + after;
    if |before| == 0 {
      assert long[1..] == short;
    } else {
      assert long[0] == short[0] == before[0];
      assert long[1..] == before[1..] + [Characters(a), Characters(b)] + after;
      assert short[1..] == before[1..] + [Characters(b)] + after;
      match OnEvent(h, before[0])
      case Continue(h') =>
        LastChunkWins(before[1..], a, b, after, h');
      case Break(_) =>
      case NullPointer =>
    }
  }

  /** The element names that close a cell: qualified name `td`, or a local
      name spelled `td` in any case. */
  lemma CellCloseNames(qName: string, localName: string)
    ensures IsCellClose(EndElement(qName, localName))
        <==> qName == "td" || localName in {"td", "tD", "Td", "TD"}
  {
    if |localName| == 2 && EqualsIgnoreCase(localName, "td") {
      assert ToLowerAscii(localName[0]) == 't' && ToLowerAscii(localName[1]) == 'd';
      assert localName == [localName[0], localName[1]];
    }
  }

  /** A character chunk only replaces the current text, whatever follows it. */
  lemma RunAfterChunk(chunk: string, rest: seq<Event>, h: Handler)
    ensures Run([Characters(chunk)] + rest, h) == Run(rest, h.(characters := Some(Trim(chunk))))
  {
    assert ([Characters(chunk)] + rest)[1..] == rest;
  }

  /** The close of the cell whose text is the label arms the handler. */
  lemma RunAfterLabelCell(name: string, rest: seq<Event>)
    ensures Run([EndElement("td", "")] + rest, Handler(name, Some(name), false))
         == Run(rest, Handler(name, Some(name), true))
  {
    assert ([EndElement("td", "")] + rest)[1..] == rest;
  }

  /** The text is not cleared when a cell closes: an empty value cell right
      after the label cell hands over the label itself. */
  lemma EmptyValueCellRepeatsLabel(name: string, labelChunk: string)
    requires Trim(labelChunk) == name
    ensures Run([Characters(labelChunk), EndElement("td", ""), EndElement("td", "")], NewHandler(name))
         == Captured(Some(name))
  {
    var td := EndElement("td", "");
    RunAfterChunk(labelChunk, [td, td], NewHandler(name));
    assert [Characters(labelChunk), td, td] == [Characters(labelChunk)] + [td, td];
  }

  /** Once armed, a close of nested markup is skipped and the cell close
      captures whatever text is current. */
  lemma ArmedSkipsNestedClose(name: string, t: string)
    ensures Run([EndElement("b", "b"), EndElement("td", "")], Handler(name, Some(t), true))
         == Captured(Some(t))
  {
    assert ToLowerAscii("b"[0]) != ToLowerAscii("td"[0]);
  }

  /** Once armed, only the last of the value cell's chunks is captured. */
  lemma ArmedKeepsLastChunk(name: string, a: string, b: string)
    ensures Run([Characters(a), Characters(b), EndElement("b", "b"), EndElement("td", "")],
                Handler(name, Some(name), true))
         == Captured(Some(Trim(b)))
  {
    var armed := Handler(name, Some(name), true);
    var bold := EndElement("b", "b");
    var td := EndElement("td", "");
    RunAfterChunk(a, [Characters(b), bold, td], armed);
    assert [Characters(a), Characters(b), bold, td] == [Characters(a)] + [Characters(b), bold, td];
    RunAfterChunk(b, [bold, td], armed.(characters := Some(Trim(a))));
    assert [Characters(b), bold, td] == [Characters(b)] + [bold, td];
    ArmedSkipsNestedClose(name, Trim(b));
  }

  /** Only the last chunk of a cell counts: for `<td>a<b>b</b></td>` right
      after the label cell, the captured text is the trimmed `b` alone. */
  lemma ValueCellKeepsLastChunk(name: string, labelChunk: string, a: string, b: string)
    requires Trim(labelChunk) == name
    ensures Run([Characters(labelChunk), EndElement("td", ""), Characters(a), Characters(b),
                 EndElement("b", "b"), EndElement("td", "")], NewHandler(name))
         == Captured(Some(Trim(b)))
  {
    var td := EndElement("td", "");
    var rest := [Characters(a), Characters(b), EndElement("b", "b"), td];
    RunAfterChunk(labelChunk, [td] + rest, NewHandler(name));
    assert [Characters(labelChunk), td, Characters(a), Characters(b), EndElement("b", "b"), td]
        == [Characters(labelChunk)] + ([td] + rest);
    RunAfterLabelCell(name, rest);
    ArmedKeepsLastChunk(name, a, b);
  }
}

=== FILE: info_parser.dfy ===
/** `InfoParser` and `HtmlInfoParser` in TestResult.java: one labelled lookup
    per parse of the report file, and its coercion to text or `int`. */
module InfoParser {
  import opened Outcomes
  import opened JavaInt
  import opened JavaString
  import opened InfoHandler

  /** The two document readers: the JAXP SAX parser (strict XML) and the
      htmlparser SAX adapter (lenient HTML). */
  datatype Reader = StrictXml | LenientHtml

  /** The exceptions a lookup can end with: `SAXException` (malformed
      document), `IOException`, `ParserConfigurationException`, and the
      `NullPointerException` of a cell closing before any text. */
  datatype Fault = FormatError | IOError | ConfigurationError | NullDereference

  /** How the reader's delivery of callbacks ends when the handler does not
      stop it first. */
  datatype Ending = Complete | Malformed | Unreadable

  /** What one reader makes of the report file: either it cannot be set up,
      or it delivers callbacks and then ends as stated. */
  datatype Reading =
    | ReaderUnavailable
    | Delivered(events: seq<Event>, ending: Ending)

  /** `parseFor`: runs a fresh handler for the label over the reading. A
      captured cell ends the parse successfully whatever would have followed;
      otherwise the reading's own ending decides. `ReaderUnavailable` stands
      for the `ParserConfigurationException` of the strict parser's factory
      and for the `SAXException` of the lenient reader's `createXMLReader`.
      A `SAXException` from `newSAXParser` comes before any callback and so
      is the reading `Delivered([], Malformed)`. */
  function ParseFor(reader: Reader, reading: Reading, infoName: string): (r: Result<Option<string>, Fault>)
    ensures r == Failure(ConfigurationError) ==> reader == StrictXml
    ensures r.Success? ==> reading.Delivered?
  {
    match reading
    case ReaderUnavailable =>
      Failure(if reader == StrictXml then ConfigurationError else FormatError)
    case Delivered(events, ending) =>
      match Run(events, NewHandler(infoName))
      case Captured(info) => Success(info)
      case Crashed => Failure(NullDereference)
      case Exhausted =>
        match ending
        case Complete => Success(None)
        case Malformed => Failure(FormatError)
        case Unreadable => Failure(IOError)
  }

  /** `retrieve`: a configuration failure is reported as an I/O error; any
      other outcome of `parseFor` passes through unchanged. */
  function Retrieve(reader: Reader, reading: Reading, infoName: string): (r: Result<Option<string>, Fault>)
    ensures r.Failure? ==> r.error != ConfigurationError
    ensures reading == ReaderUnavailable ==> r == Failure(if reader == StrictXml then IOError else FormatError)
  {
    match ParseFor(reader, reading, infoName)
    case Failure(ConfigurationError) => Failure(IOError)
    case other => other
  }

  /** `getString`: the raw lookup, null when the label has no value cell. */
  function GetString(reader: Reader, reading: Reading, infoName: string): (r: Result<Option<string>, Fault>)
    ensures r.Failure? ==> r.error != ConfigurationError
    ensures r.Success? ==> reading.Delivered?
  {
    Retrieve(reader, reading, infoName)
  }

  /** The coercion inside `getInt` once a text was found: every non-digit is
      deleted and the rest parsed as an `int`; an empty or overflowing
      remainder yields the default. */
  function Coerce(v: string, def: Int32): (r: Int32)
    ensures r == def || 0 <= r <= INT_MAX
    ensures AllDigits(v) && 0 < |v| && DecimalValue(v) <= INT_MAX ==> r == DecimalValue(v)
    ensures AllDigits(v) && DecimalValue(v) > INT_MAX ==> r == def
    ensures (forall i :: 0 <= i < |v| ==> !IsDigit(v[i])) ==> r == def
  {
    StripNonDigitsFixes(v);
    match ParseDigits(StripNonDigits(v))
    case Some(n) => n
    case None => def
  }

  /** `getInt(label, def)`: the default when the label has no value cell,
      the coerced text otherwise; lookup failures propagate. */
  function GetInt(reader: Reader, reading: Reading, infoName: string, def: Int32): (r: Result<Int32, Fault>)
    ensures r.Failure? <==> Retrieve(reader, reading, infoName).Failure?
    ensures r.Failure? ==> r.error == Retrieve(reader, reading, infoName).error
    ensures Retrieve(reader, reading, infoName) == Success(None) ==> r == Success(def)
    ensures forall text :: Retrieve(reader, reading, infoName) == Success(Some(text)) ==> r == Success(Coerce(text, def))
    ensures r.Success? ==> r.value == def || 0 <= r.value <= INT_MAX
  {
    var v :- Retrieve(reader, reading, infoName);
    match v
    case None => Success(def)
    case Some(s) => Success(Coerce(s, def))
  }

  /** `getInt(label)`: the sentinel -1 stands for a missing or unreadable
      value, so the result is -1 or a non-negative `int`. */
  function GetIntOrSentinel(reader: Reader, reading: Reading, infoName: string): (r: Result<Int32, Fault>)
    ensures r.Success? ==> -1 <= r.value <= INT_MAX
    ensures Retrieve(reader, reading, infoName) == Success(None) ==> r == Success(-1)
    ensures forall text :: Retrieve(reader, reading, infoName) == Success(Some(text)) ==> r == Success(Coerce(text, -1))
    ensures r.Failure? <==> Retrieve(reader, reading, infoName).Failure?
    ensures r.Failure? ==> r.error == Retrieve(reader, reading, infoName).error
  {
    GetInt(reader, reading, infoName, -1)
  }

  // ---------------------------------------------------------------------
  // Properties
  // ---------------------------------------------------------------------

  /** A delivered document is looked up by running the handler over it; the
      reading's ending only matters when the handler runs out of input. This
      only unfolds `Retrieve` and `ParseFor` once, as a step for the lemmas
      below; it states no property of its own. */
  lemma RetrieveRunsHandler(reader: Reader, events: seq<Event>, ending: Ending, infoName: string)
    ensures Retrieve(reader, Delivered(events, ending), infoName)
         == match Run(events, NewHandler(infoName))
            case Captured(info) => Success(info)
            case Crashed => Failure(NullDereference)
            case Exhausted =>
              match ending
              case Complete => Success(None)
              case Malformed => Failure(FormatError)
              case Unreadable => Failure(IOError)
  {
  }

  /** The text of a value cell is never null: the label cell before it had text. */
  lemma ValueCellHasText(events: seq<Event>, infoName: string, v: Option<string>)
    requires ValueCell(Cells(events, None), infoName, v)
    ensures v.Some?
  {
    var cells := Cells(events, None);
    CellsKeepText(events, None);
    var k :| LabelFirstAt(cells, infoName, k) && k + 1 < |cells| && cells[k + 1] == v;
    assert cells[k].Some?;
  }

  /** The lookup of a delivered document returns `v` exactly when `v` is the
      text current at the cell close right after the first cell close whose
      text is the label (see `Cells` for what a cell's text is). */
  lemma RetrieveFindsValueCell(reader: Reader, events: seq<Event>, ending: Ending, infoName: string)
    ensures var cells := Cells(events, None);
            forall v :: Retrieve(reader, Delivered(events, ending), infoName) == Success(Some(v))
                        <==> ValueCell(cells, infoName, Some(v))
  {
    LookupFindsValueCell(events, infoName);
    RetrieveRunsHandler(reader, events, ending, infoName);
  }

  /** The lookup fails with a null dereference exactly when the first cell
      closes before any character data. */
  lemma RetrieveCrashesOnTextlessCell(reader: Reader, events: seq<Event>, ending: Ending, infoName: string)
    ensures var cells := Cells(events, None);
            Retrieve(reader, Delivered(events, ending), infoName) == Failure(NullDereference)
            <==> |cells| > 0 && cells[0].None?
  {
    LookupFindsValueCell(events, infoName);
    RetrieveRunsHandler(reader, events, ending, infoName);
  }

  /** The lookup returns null exactly when the document ends normally, no
      cell closes before text, and the label has no value cell (it is
      missing, or it is the last cell). */
  lemma RetrieveFindsNothing(reader: Reader, events: seq<Event>, ending: Ending, infoName: string)
    ensures var cells := Cells(events, None);
            Retrieve(reader, Delivered(events, ending), infoName) == Success(None)
            <==> ending == Complete && !(|cells| > 0 && cells[0].None?)
                 && forall v :: !ValueCell(cells, infoName, v)
  {
    var cells := Cells(events, None);
    LookupFindsValueCell(events, infoName);
    RetrieveRunsHandler(reader, events, ending, infoName);
    forall v | ValueCell(cells, infoName, v)
      ensures v.Some?
    {
      ValueCellHasText(events, infoName, v);
    }
    NothingFound(Run(events, NewHandler(infoName)), cells, infoName, ending,
                 Retrieve(reader, Delivered(events, ending), infoName));
  }

  /** The case analysis behind `RetrieveFindsNothing`, over any scan outcome
      that agrees with the cell view. */
  lemma NothingFound(scan: Scan, cells: seq<Option<string>>, infoName: string, ending: Ending,
                     r: Result<Option<string>, Fault>)
    requires scan == Crashed <==> |cells| > 0 && cells[0].None?
    requires forall v :: scan == Captured(Some(v)) <==> ValueCell(cells, infoName, Some(v))
    requires scan != Captured(None)
    requires forall v :: ValueCell(cells, infoName, v) ==> v.Some?
    requires r == match scan
                  case Captured(info) => Success(info)
                  case Crashed => Failure(NullDereference)
                  case Exhausted =>
                    match ending
                    case Complete => Success(None)
                    case Malformed => Failure(FormatError)
                    case Unreadable => Failure(IOError)
    ensures r == Success(None)
            <==> ending == Complete && !(|cells| > 0 && cells[0].None?)
                 && forall v :: !ValueCell(cells, infoName, v)
  {
    if scan.Captured? {
      var w := scan.info.value;
      assert scan == Captured(Some(w));
      assert ValueCell(cells, infoName, Some(w));
    }
  }

  /** Once the value cell is captured, a malformed or unreadable remainder
      of the document makes no difference: the lookup still succeeds. */
  lemma CapturedIgnoresEnding(reader: Reader, events: seq<Event>, rest: seq<Event>, e1: Ending, e2: Ending, infoName: string)
    requires Run(events, NewHandler(infoName)).Captured?
    ensures Retrieve(reader, Delivered(events + rest, e1), infoName)
         == Retrieve(reader, Delivered(events, e2), infoName)
    ensures Retrieve(reader, Delivered(events + rest, e1), infoName).Success?
  {
    CaptureIsFinal(events, rest, NewHandler(infoName));
  }

  /** Only the digits matter, wherever the other characters stand: `getInt`
      reads a text exactly as it reads the digits of that text, in order. */
  lemma CoerceSeesOnlyDigits(v: string, def: Int32)
    ensures Coerce(v, def) == Coerce(StripNonDigits(v), def)
  {
    StripNonDigitsFixes(StripNonDigits(v));
  }

  /** `getInt` reads back every non-negative `int` written in decimal. */
  lemma CoerceRoundTrip(n: nat, def: Int32)
    requires n <= INT_MAX
    ensures Coerce(ToDecimal(n), def) == n
  {
  }

  /** Digit-free text before and after a number is ignored, whatever it
      is: the result is the value of the number alone. */
  lemma CoerceIgnoresNonDigits(before: string, n: nat, after: string, def: Int32)
    requires n <= INT_MAX
    requires forall i :: 0 <= i < |before| ==> !IsDigit(before[i])
    requires forall i :: 0 <= i < |after| ==> !IsDigit(after[i])
    ensures Coerce(before + ToDecimal(n) + after, def) == n
  {
    var d := ToDecimal(n);
    StripNonDigitsConcat(before + d, after);
    StripNonDigitsConcat(before, d);
    StripNonDigitsFixes(before);
    StripNonDigitsFixes(after);
    StripNonDigitsFixes(d);
    assert StripNonDigits(before + d + after) == d;
    assert ParseDigits(d) == Some(n);
  }

  /** A value beyond `Integer.MAX_VALUE` falls back to the default. */
  lemma CoerceOverflow(n: nat, def: Int32)
    requires n > INT_MAX
    ensures Coerce(ToDecimal(n), def) == def
  {
  }

  /** A number with a thousands separator and a unit reads as the number. */
  lemma CoerceSeparatedNumber(def: Int32)
    ensures Coerce("1,234 ms", def) == 1234
  {
    assert StripNonDigits("ms") == "";
    assert StripNonDigits(" ms") == "";
    assert StripNonDigits("4 ms") == "4";
    assert StripNonDigits("34 ms") == "34";
    assert StripNonDigits("234 ms") == "234";
    assert StripNonDigits(",234 ms") == "234";
    assert StripNonDigits("1,234 ms") == "1234";
    assert DecimalValue("1234") == 1234 by {
      assert "1234"[..3] == "123";
      assert "123"[..2] == "12";
      assert "12"[..1] == "1";
    }
  }

  /** A text without digits gives the default. */
  lemma CoerceWithoutDigits(def: Int32)
    ensures Coerce("n/a", def) == def
  {
    assert StripNonDigits("n/a") == "";
  }

  /** Sign and decimal point are dropped like any other non-digit: `-12.5`
      reads as 125. */
  lemma CoerceSignAndPoint(def: Int32)
    ensures Coerce("-12.5", def) == 125
  {
    assert StripNonDigits("-12.5") == "125";
    assert DecimalValue("125") == 125 by {
      assert "125"[..2] == "12";
      assert "12"[..1] == "1";
    }
  }
}

=== FILE: java_int.dfy ===
/** Java `int` arithmetic on Dafny's unbounded integers. */
module JavaInt {

  const INT_MIN: int := -0x8000_0000
  const INT_MAX: int := 0x7fff_ffff

  /** The values of a Java `int`. */
  type Int32 = x: int | INT_MIN <= x <= INT_MAX

  function Abs(x: int): nat {
    if x < 0 then -x else x
  }

  /** Two's-complement wrap-around of a Java `int` sum. */
  function Wrap32(x: int): (r: Int32)
    ensures (x - r) % 0x1_0000_0000 == 0
    ensures INT_MIN <= x <= INT_MAX ==> r == x
  {
    (x - INT_MIN) % 0x1_0000_0000 + INT_MIN
  }

  /** Java's integer `/`: the quotient is rounded toward zero, so the
      remainder is smaller than the divisor and takes the dividend's sign. */
  function TruncDiv(a: int, b: int): (q: int)
    requires b != 0
    ensures Abs(a - q * b) < Abs(b)
    ensures a - q * b == 0 || (a - q * b > 0 <==> a > 0)
    ensures Abs(q) <= Abs(a)
  {
    var n := Abs(a) / Abs(b);
    var q := if (a < 0) == (b < 0) then n else -n;
    TruncDivRemainder(a, b, n, q);
    q
  }

  /** The remainder of the truncating quotient is the magnitudes' remainder,
      carrying the dividend's sign. */
  lemma TruncDivRemainder(a: int, b: int, n: int, q: int)
    requires b != 0
    requires n == Abs(a) / Abs(b)
    requires q == if (a < 0) == (b < 0) then n else -n
    ensures a - q * b == (if a < 0 then -(Abs(a) % Abs(b)) else Abs(a) % Abs(b))
    ensures 0 <= n <= Abs(a)
  {
    var A: int, B: int := Abs(a), Abs(b);
    var m := n * B;
    assert A == m + A % B;
    SignedProduct(n, B, q, b);
    QuotientBound(A, B, n);
  }

  lemma SignedProduct(n: int, B: int, q: int, b: int)
    requires B == Abs(b) && (q == n || q == -n)
    ensures q * b == (if (q == n) == (b > 0) then n * B else -(n * B))
  {
    if b < 0 {
      assert b == -B;
    }
  }

  lemma QuotientBound(A: int, B: int, n: int)
    requires A >= 0 && B > 0 && n == A / B
    ensures 0 <= n <= A
  {
    assert n * B >= n * 1;
  }

  /** For a non-negative dividend and positive divisor, truncation and
      Dafny's Euclidean division agree; a dividend smaller in magnitude than
      the divisor gives 0 (Java's -1 / 1000 is 0, Dafny's is -1). */
  lemma TruncDivSmall(a: int, b: int)
    requires b > 0
    ensures a >= 0 ==> TruncDiv(a, b) == a / b
    ensures -b < a < b ==> TruncDiv(a, b) == 0
  {
    if a >= 0 {
      assert Abs(a) == a && Abs(b) == b;
    }
    if -b < a < 0 {
      assert Abs(a) / Abs(b) == 0;
    }
  }
}

=== FILE: java_string.dfy ===
/** The `java.lang.String` and `Integer.parseInt` behaviour the report
    parser relies on: `trim`, `equalsIgnoreCase`, `replaceAll("\\D+", "")`
    and decimal parsing into an `int`. */
module JavaString {
  import opened Outcomes
  import opened JavaInt

  /** `String.trim` removes every character up to and including U+0020. */
  predicate IsBlank(c: char) {
    c <= ' '
  }

  /** Neither end of the string can be trimmed any further. */
  predicate IsTrimmed(s: string) {
    |s| == 0 || (!IsBlank(s[0]) && !IsBlank(s[|s| - 1]))
  }

  function LeadingBlanks(s: string): (n: nat)
    ensures n <= |s|
    ensures forall k :: 0 <= k < n ==> IsBlank(s[k])
    ensures n < |s| ==> !IsBlank(s[n])
  {
    if |s| > 0 && IsBlank(s[0]) then 1 + LeadingBlanks(s[1..]) else 0
  }

  function TrailingBlanks(s: string): (n: nat)
    ensures n <= |s|
    ensures forall k :: |s| - n <= k < |s| ==> IsBlank(s[k])
    ensures n < |s| ==> !IsBlank(s[|s| - 1 - n])
  {
    if |s| > 0 && IsBlank(s[|s| - 1]) then 1 + TrailingBlanks(s[..|s| - 1]) else 0
  }

  /** `s` is `r` with `i` blanks before it and only blanks after it. */
  predicate PaddedAt(s: string, r: string, i: int) {
    && 0 <= i && i + |r| <= |s|
    && (forall k :: 0 <= k < |r| ==> s[i + k] == r[k])
    && (forall k :: 0 <= k < i ==> IsBlank(s[k]))
    && (forall k :: i + |r| <= k < |s| ==> IsBlank(s[k]))
  }

  /** `String.trim`: the input is blanks, then the result, then blanks, and
      the result neither starts nor ends with a blank. */
  function Trim(s: string): (r: string)
    ensures IsTrimmed(r)
    ensures exists i :: PaddedAt(s, r, i)
  {
    var i := LeadingBlanks(s);
    var t := s[i..];
    var j := TrailingBlanks(t);
    assert forall k :: |s| - j <= k < |s| ==> s[k] == t[k - i];
    TrimSlice(s, i, j);
    s[i..|s| - j]
  }

  /** Cutting `i` leading and `j` trailing blanks, each run maximal, leaves
      a trimmed string padded by blanks. */
  lemma TrimSlice(s: string, i: nat, j: nat)
    requires i + j <= |s|
    requires forall k :: 0 <= k < i ==> IsBlank(s[k])
    requires forall k :: |s| - j <= k < |s| ==> IsBlank(s[k])
    requires i + j < |s| ==> !IsBlank(s[i]) && !IsBlank(s[|s| - 1 - j])
    ensures i + j <= |s|
    ensures IsTrimmed(s[i..|s| - j]) && PaddedAt(s, s[i..|s| - j], i)
  {
    var r := s[i..|s| - j];
    if |r| > 0 {
      assert r[0] == s[i];
      assert r[|r| - 1] == s[|s| - 1 - j];
    }
  }

  /** ASCII case folding. */
  function ToLowerAscii(c: char): char {
    if 'A' <= c <= 'Z' then (c as int - 'A' as int + 'a' as int) as char else c
  }

  /** `String.equalsIgnoreCase`, folding ASCII letters only. */
  predicate EqualsIgnoreCase(a: string, b: string) {
    |a| == |b| && forall i :: 0 <= i < |a| ==> ToLowerAscii(a[i]) == ToLowerAscii(b[i])
  }

  /** The text with every ASCII letter in lower case. */
  function LowerAscii(s: string): (r: string)
    ensures |r| == |s|
    ensures forall i :: 0 <= i < |s| ==> r[i] == ToLowerAscii(s[i])
  {
    if |s| == 0 then "" else [ToLowerAscii(s[0])] + LowerAscii(s[1..])
  }

  /** Two texts are equal ignoring case exactly when their lower-case forms
      are equal; in particular the relation is reflexive and symmetric. */
  lemma EqualsIgnoreCaseLowers(a: string, b: string)
    ensures EqualsIgnoreCase(a, b) <==> LowerAscii(a) == LowerAscii(b)
    ensures EqualsIgnoreCase(a, a)
    ensures EqualsIgnoreCase(a, b) ==> EqualsIgnoreCase(b, a)
  {
    if LowerAscii(a) == LowerAscii(b) {
      forall i | 0 <= i < |a|
        ensures ToLowerAscii(a[i]) == ToLowerAscii(b[i])
      {
        assert LowerAscii(a)[i] == LowerAscii(b)[i];
      }
    }
  }

  /** The characters `\d` matches: ASCII `0` to `9`. */
  predicate IsDigit(c: char) {
    '0' <= c <= '9'
  }

  predicate AllDigits(s: string) {
    forall i :: 0 <= i < |s| ==> IsDigit(s[i])
  }

  /** `s.replaceAll("\\D+", "")`: every non-digit is deleted, every digit
      is kept, in order. */
  function StripNonDigits(s: string): (r: string)
    ensures AllDigits(r)
    ensures |r| <= |s|
  {
    if |s| == 0 then ""
    else
      var rest := StripNonDigits(s[1..]);
      if IsDigit(s[0]) then [s[0]] + rest else rest
  }

  /** Stripping keeps every digit, as often as it occurs, and only digits. */
  lemma {:induction false} StripNonDigitsKeepsDigits(s: string)
    ensures forall c :: IsDigit(c) ==> multiset(StripNonDigits(s))[c] == multiset(s)[c]
    ensures forall c :: !IsDigit(c) ==> multiset(StripNonDigits(s))[c] == 0
  {
    if |s| > 0 {
      StripNonDigitsKeepsDigits(s[1..]);
      assert s == [s[0]] + s[1..];
    }
  }

  function DigitValue(c: char): nat
    requires IsDigit(c)
  {
    c as int - '0' as int
  }

  /** The number a string of decimal digits denotes, most significant first. */
  function DecimalValue(ds: string): nat
    requires AllDigits(ds)
  {
    if |ds| == 0 then 0
    else DecimalValue(ds[..|ds| - 1]) * 10 + DigitValue(ds[|ds| - 1])
  }

  function DigitChar(d: nat): (c: char)
    requires d < 10
    ensures IsDigit(c) && DigitValue(c) == d
  {
    ('0' as int + d) as char
  }

  /** The shortest decimal spelling of `n` (`Integer.toString` for n >= 0). */
  function ToDecimal(n: nat): (s: string)
    ensures AllDigits(s) && |s| > 0
    ensures DecimalValue(s) == n
  {
    if n < 10 then [DigitChar(n)]
    else
      var s := ToDecimal(n / 10) + [DigitChar(n % 10)];
      assert s[..|s| - 1] == ToDecimal(n / 10);
      s
  }

  /** `Integer.parseInt` on the only strings that reach it here, strings of
      ASCII digits: the empty string and values above `Integer.MAX_VALUE`
      raise `NumberFormatException` (None). */
  function ParseDigits(ds: string): (r: Option<Int32>)
    requires AllDigits(ds)
    ensures r.Some? ==> 0 <= r.value && r.value == DecimalValue(ds)
    ensures r.None? <==> |ds| == 0 || DecimalValue(ds) > INT_MAX
  {
    if |ds| == 0 || DecimalValue(ds) > INT_MAX then None else Some(DecimalValue(ds))
  }

  /** Trimming a trimmed string changes nothing, so `trim` is idempotent. */
  lemma TrimIdempotent(s: string)
    ensures IsTrimmed(s) ==> Trim(s) == s
    ensures Trim(Trim(s)) == Trim(s)
  {
    var t := Trim(s);
    assert LeadingBlanks(t) == 0;
    assert TrailingBlanks(t) == 0;
    assert t[0..|t| - 0] == t;
    if IsTrimmed(s) {
      assert LeadingBlanks(s) == 0;
      assert TrailingBlanks(s) == 0;
      assert s[0..|s| - 0] == s;
    }
  }

  /** Digit stripping works piecewise: it keeps the digits in their order. */
  lemma {:induction false} StripNonDigitsConcat(a: string, b: string)
    ensures StripNonDigits(a + b) == StripNonDigits(a) + StripNonDigits(b)
  {
    if |a| > 0 {
      assert (a + b)[1..] == a[1..] + b;
      StripNonDigitsConcat(a[1..], b);
    } else {
      assert a + b == b;
    }
  }

  /** A digit string survives stripping unchanged; a digit-free one vanishes. */
  lemma {:induction false} StripNonDigitsFixes(s: string)
    ensures AllDigits(s) ==> StripNonDigits(s) == s
    ensures (forall i :: 0 <= i < |s| ==> !IsDigit(s[i])) ==> StripNonDigits(s) == ""
  {
    if |s| > 0 {
      StripNonDigitsFixes(s[1..]);
    }
  }

  /** `Integer.parseInt(Integer.toString(n))` gives `n` back exactly when `n`
      fits in an `int`. */
  lemma ParseDigitsRoundTrip(n: nat)
    ensures ParseDigits(ToDecimal(n)) == (if n <= INT_MAX then Some(n) else None)
  {
  }
}

=== FILE: outcomes.dfy ===
/** Failure-compatible result types shared by the parser model. */
module Outcomes {

  /** A value that may be missing: Java's nullable reference. */
  datatype Option<+T> = None | Some(value: T)

  /** Either a value or the exception that aborted the computation. */
  datatype Result<+T, +E> = Success(value: T) | Failure(error: E) {

    predicate IsFailure() {
      Failure?
    }

    function PropagateFailure<U>(): Result<U, E>
      requires Failure?
    {
      Failure(error)
    }

    function Extract(): T
      requires Success?
    {
      value
    }
  }
}

=== FILE: test_result.dfy ===
/** `TestResult` in TestResult.java: the record of one report's counts, the
    two dialect extractors and the dispatcher that falls back from the
    first to the second. */
module TestResults {
  import opened Outcomes
  import opened JavaInt
  import opened JavaString
  import opened InfoHandler
  import opened InfoParser

  /** One parsed report. `result` is Java's nullable `String`. */
  datatype TestResult = TestResult(
    resultFileName: string,
    result: Option<string>,
    totalTime: Int32,
    numTestPasses: Int32,
    numTestFailures: Int32,
    numCommandPasses: Int32,
    numCommandFailures: Int32,
    numCommandErrors: Int32)

  /** The report file as each of the two readers sees it. */
  datatype ReportFile = ReportFile(asXml: Reading, asHtml: Reading)

  /** `getNumTestTotal`: passes plus failures in `int` arithmetic, which is
      the plain sum whenever that sum fits in an `int`. */
  function NumTestTotal(t: TestResult): (n: Int32)
    ensures (n - (t.numTestPasses + t.numTestFailures)) % 0x1_0000_0000 == 0
    ensures INT_MIN <= t.numTestPasses + t.numTestFailures <= INT_MAX ==> n == t.numTestPasses + t.numTestFailures
  {
    Wrap32(t.numTestPasses + t.numTestFailures)
  }

  /** The labels the structured (Selenium) report is read by, in order. */
  const StructuredLabels: seq<string> := [
    "result:", "totalTime:", "numTestPasses:", "numTestFailures:",
    "numCommandPasses:", "numCommandFailures:", "numCommandErrors:"]

  /** The labels the logging-selenium report is read by, in order. */
  const LoggingLabels: seq<string> := [
    "last failed message:", "test-duration [ms]:", "commands processed:", "failed commands:"]

  /** Every lookup of `labels` through `reader` completes without an exception. */
  ghost predicate LookupsSucceed(reader: Reader, reading: Reading, labels: seq<string>) {
    forall i :: 0 <= i < |labels| ==> Retrieve(reader, reading, labels[i]).Success?
  }

  /** Lookup `i` is the first of `labels` to end with an exception. */
  ghost predicate FirstFailingLookup(reader: Reader, reading: Reading, labels: seq<string>, i: int) {
    && 0 <= i < |labels|
    && Retrieve(reader, reading, labels[i]).Failure?
    && forall j :: 0 <= j < i ==> Retrieve(reader, reading, labels[j]).Success?
  }

  /** An `int` count read with the -1 sentinel. */
  predicate SentinelCount(x: int) {
    -1 <= x <= INT_MAX
  }

  /** The structured dialect (body of `parse`): seven lookups in a fixed
      order; the first exception aborts the whole record. Counts use the -1
      sentinel and the total time is the millisecond value divided by 1000
      with Java's truncating division. */
  function ParseStructured(fileName: string, reading: Reading): (r: Result<TestResult, Fault>)
    ensures r.Success? ==> r.value.resultFileName == fileName
    ensures r.Failure? ==> r.error != ConfigurationError
    ensures r.Success? ==> Retrieve(StrictXml, reading, "result:") == Success(r.value.result)
    ensures r.Success? ==> && SentinelCount(r.value.numTestPasses)
                           && SentinelCount(r.value.numTestFailures)
                           && SentinelCount(r.value.numCommandPasses)
                           && SentinelCount(r.value.numCommandFailures)
                           && SentinelCount(r.value.numCommandErrors)
                           && 0 <= r.value.totalTime <= INT_MAX / 1000
  {
    var result :- GetString(StrictXml, reading, "result:");
    var totalTime :- GetIntOrSentinel(StrictXml, reading, "totalTime:");
    var numTestPasses :- GetIntOrSentinel(StrictXml, reading, "numTestPasses:");
    var numTestFailures :- GetIntOrSentinel(StrictXml, reading, "numTestFailures:");
    var numCommandPasses :- GetIntOrSentinel(StrictXml, reading, "numCommandPasses:");
    var numCommandFailures :- GetIntOrSentinel(StrictXml, reading, "numCommandFailures:");
    var numCommandErrors :- GetIntOrSentinel(StrictXml, reading, "numCommandErrors:");
    Success(TestResult(fileName, result, TruncDiv(totalTime, 1000), numTestPasses,
                       numTestFailures, numCommandPasses, numCommandFailures, numCommandErrors))
  }

  /** The logging-selenium dialect (`parseLoggingSeleniumReport`): four
      lookups through the lenient reader. A missing failure message means
      "OK"; failed commands default to 0; errors are never reported; the
      total time is kept in milliseconds; and since the error count is 0 the
      report always counts as one passed test. */
  function ParseLoggingSeleniumReport(fileName: string, reading: Reading): (r: Result<TestResult, Fault>)
    ensures r.Success? ==> r.value.resultFileName == fileName
    ensures r.Failure? ==> r.error != ConfigurationError
    ensures r.Success? ==> r.value.result.Some?
    ensures r.Success? ==> && r.value.numTestPasses == 1
                           && r.value.numTestFailures == 0
                           && r.value.numCommandErrors == 0
                           && 0 <= r.value.numCommandFailures
                           && SentinelCount(r.value.numCommandPasses)
                           && SentinelCount(r.value.totalTime)
  {
    var message :- GetString(LenientHtml, reading, "last failed message:");
    var result := if message.None? then "OK" else message.value;
    var totalTime :- GetIntOrSentinel(LenientHtml, reading, "test-duration [ms]:");
    var numCommandPasses :- GetIntOrSentinel(LenientHtml, reading, "commands processed:");
    var numCommandFailures :- GetInt(LenientHtml, reading, "failed commands:", 0);
    var numCommandErrors: Int32 := 0;
    var tests: (int, int) := if numCommandErrors + numCommandErrors == 0 then (1, 0) else (0, 1);
    Success(TestResult(fileName, Some(result), totalTime, tests.0, tests.1,
                       numCommandPasses, numCommandFailures, numCommandErrors))
  }

  /** `parse`: the structured dialect first; a format error from it (from
      any of its lookups) discards the partial record and the file is read
      again as a logging-selenium report, whose outcome is final. Other
      exceptions propagate. The record always names the requested file. */
  function Parse(fileName: string, file: ReportFile): (r: Result<TestResult, Fault>)
    ensures r.Success? ==> r.value.resultFileName == fileName
    ensures r.Failure? ==> r.error != ConfigurationError
    ensures r.Success? ==> r == ParseStructured(fileName, file.asXml)
                           || r == ParseLoggingSeleniumReport(fileName, file.asHtml)
    ensures ParseStructured(fileName, file.asXml).Success? ==> r == ParseStructured(fileName, file.asXml)
  {
    match ParseStructured(fileName, file.asXml)
    case Failure(FormatError) => ParseLoggingSeleniumReport(fileName, file.asHtml)
    case other => other
  }

  /** The structured reading in terms of its seven lookups, label by label:
      it succeeds when all of them do, and otherwise fails with the
      exception of the earliest failing one. */
  lemma StructuredLookupChain(fileName: string, reading: Reading)
    ensures var r := ParseStructured(fileName, reading);
            var r0 := Retrieve(StrictXml, reading, StructuredLabels[0]);
            var r1 := Retrieve(StrictXml, reading, StructuredLabels[1]);
            var r2 := Retrieve(StrictXml, reading, StructuredLabels[2]);
            var r3 := Retrieve(StrictXml, reading, StructuredLabels[3]);
            var r4 := Retrieve(StrictXml, reading, StructuredLabels[4]);
            var r5 := Retrieve(StrictXml, reading, StructuredLabels[5]);
            var r6 := Retrieve(StrictXml, reading, StructuredLabels[6]);
            && (r.Success? <==> r0.Success? && r1.Success? && r2.Success? && r3.Success?
                                && r4.Success? && r5.Success? && r6.Success?)
            && (r.Failure? ==> r.error == (if r0.Failure? then r0.error
                                          else if r1.Failure? then r1.error
                                          else if r2.Failure? then r2.error
                                          else if r3.Failure? then r3.error
                                          else if r4.Failure? then r4.error
                                          else if r5.Failure? then r5.error
                                          else r6.error))
  {
  }

  /** The structured record exists exactly when all seven lookups complete;
      otherwise the first lookup to fail decides the exception. */
  lemma StructuredFailsAtFirstFailingLookup(fileName: string, reading: Reading)
    ensures ParseStructured(fileName, reading).Success? <==> LookupsSucceed(StrictXml, reading, StructuredLabels)
    ensures var r := ParseStructured(fileName, reading);
            r.Failure? ==> exists i :: FirstFailingLookup(StrictXml, reading, StructuredLabels, i)
                                       && r.error == Retrieve(StrictXml, reading, StructuredLabels[i]).error
  {
    var L := StructuredLabels;
    StructuredLookupChain(fileName, reading);
    if ParseStructured(fileName, reading).Success? {
      forall i | 0 <= i < |L|
        ensures Retrieve(StrictXml, reading, L[i]).Success?
      {
        assert i in {0, 1, 2, 3, 4, 5, 6};
      }
    } else {
      FirstFailingExists(StrictXml, reading, L);
    }
  }

  /** Some lookup is the first to fail whenever not all of them complete. */
  lemma FirstFailingExists(reader: Reader, reading: Reading, labels: seq<string>)
    requires !LookupsSucceed(reader, reading, labels)
    ensures exists i :: FirstFailingLookup(reader, reading, labels, i)
  {
    var k := 0;
    while Retrieve(reader, reading, labels[k]).Success?
      invariant 0 <= k < |labels|
      invariant forall j :: 0 <= j < k ==> Retrieve(reader, reading, labels[j]).Success?
      invariant exists j :: k <= j < |labels| && Retrieve(reader, reading, labels[j]).Failure?
      decreases |labels| - k
    {
      k := k + 1;
    }
    assert FirstFailingLookup(reader, reading, labels, k);
  }

  /** The logging-selenium reading in terms of its four lookups, label by
      label: it succeeds when all of them do, and otherwise fails with the
      exception of the earliest failing one. */
  lemma LoggingLookupChain(fileName: string, reading: Reading)
    ensures var r := ParseLoggingSeleniumReport(fileName, reading);
            var r0 := Retrieve(LenientHtml, reading, LoggingLabels[0]);
            var r1 := Retrieve(LenientHtml, reading, LoggingLabels[1]);
            var r2 := Retrieve(LenientHtml, reading, LoggingLabels[2]);
            var r3 := Retrieve(LenientHtml, reading, LoggingLabels[3]);
            && (r.Success? <==> r0.Success? && r1.Success? && r2.Success? && r3.Success?)
            && (r.Failure? ==> r.error == (if r0.Failure? then r0.error
                                          else if r1.Failure? then r1.error
                                          else if r2.Failure? then r2.error
                                          else r3.error))
  {
  }

  /** The logging-selenium record exists exactly when all four lookups
      complete; otherwise the first lookup to fail decides the exception. */
  lemma LoggingFailsAtFirstFailingLookup(fileName: string, reading: Reading)
    ensures ParseLoggingSeleniumReport(fileName, reading).Success? <==> LookupsSucceed(LenientHtml, reading, LoggingLabels)
    ensures var r := ParseLoggingSeleniumReport(fileName, reading);
            r.Failure? ==> exists i :: FirstFailingLookup(LenientHtml, reading, LoggingLabels, i)
                                       && r.error == Retrieve(LenientHtml, reading, LoggingLabels[i]).error
  {
    var L := LoggingLabels;
    LoggingLookupChain(fileName, reading);
    if ParseLoggingSeleniumReport(fileName, reading).Success? {
      forall i | 0 <= i < |L|
        ensures Retrieve(LenientHtml, reading, L[i]).Success?
      {
        assert i in {0, 1, 2, 3};
      }
    } else {
      FirstFailingExists(LenientHtml, reading, L);
    }
  }

  /** A format error from any of the structured lookups, the earlier ones
      having succeeded, discards the partial record: the outcome is exactly
      the logging-selenium reading of the same file. */
  lemma FormatErrorFallsBack(fileName: string, file: ReportFile, i: int)
    requires FirstFailingLookup(StrictXml, file.asXml, StructuredLabels, i)
    requires Retrieve(StrictXml, file.asXml, StructuredLabels[i]) == Failure(FormatError)
    ensures Parse(fileName, file) == ParseLoggingSeleniumReport(fileName, file.asHtml)
  {
    StructuredFailsAtFirstFailingLookup(fileName, file.asXml);
  }

  /** Any other exception of the structured reading (I/O, configuration
      reported as I/O, null dereference) propagates without a fallback. */
  lemma OtherFaultsPropagate(fileName: string, file: ReportFile, i: int)
    requires FirstFailingLookup(StrictXml, file.asXml, StructuredLabels, i)
    requires Retrieve(StrictXml, file.asXml, StructuredLabels[i]).error != FormatError
    ensures Parse(fileName, file) == Failure(Retrieve(StrictXml, file.asXml, StructuredLabels[i]).error)
  {
    StructuredFailsAtFirstFailingLookup(fileName, file.asXml);
  }

  /** A strict parser that cannot be configured is an I/O error, and the
      lenient reader is never tried. */
  lemma UnconfigurableStrictParser(fileName: string, asHtml: Reading)
    ensures Parse(fileName, ReportFile(ReaderUnavailable, asHtml)) == Failure(IOError)
  {
  }

  /** A strict parser that throws `SAXException` while being created reads
      as a document that is malformed before its first callback: `parse`
      falls back to the logging-selenium reading of the file. */
  lemma StrictParserCreationFails(fileName: string, asHtml: Reading)
    ensures Parse(fileName, ReportFile(Delivered([], Malformed), asHtml))
         == ParseLoggingSeleniumReport(fileName, asHtml)
  {
    assert Retrieve(StrictXml, Delivered([], Malformed), "result:") == Failure(FormatError);
  }

  /** When the structured document is malformed from the first lookup on
      and the lenient reader cannot be created, the `SAXException` of the
      fallback is final. */
  lemma UnavailableHtmlReader(fileName: string, asXml: Reading)
    requires Retrieve(StrictXml, asXml, "result:") == Failure(FormatError)
    ensures Parse(fileName, ReportFile(asXml, ReaderUnavailable)) == Failure(FormatError)
  {
  }

  /** The structured counts: -1 for a label without a value cell, else the
      coerced value-cell text; the result text is the raw lookup (null when
      the label is missing). */
  lemma StructuredFieldsFromLookups(fileName: string, reading: Reading)
    requires ParseStructured(fileName, reading).Success?
    ensures var t := ParseStructured(fileName, reading).value;
            && FieldFrom(StrictXml, reading, "numTestPasses:", -1, t.numTestPasses)
            && FieldFrom(StrictXml, reading, "numTestFailures:", -1, t.numTestFailures)
            && FieldFrom(StrictXml, reading, "numCommandPasses:", -1, t.numCommandPasses)
            && FieldFrom(StrictXml, reading, "numCommandFailures:", -1, t.numCommandFailures)
            && FieldFrom(StrictXml, reading, "numCommandErrors:", -1, t.numCommandErrors)
    ensures var t := ParseStructured(fileName, reading).value;
            Retrieve(StrictXml, reading, "result:") == Success(t.result)
  {
  }

  /** `x` is what `getInt(label, def)` stores for that lookup's outcome. */
  ghost predicate FieldFrom(reader: Reader, reading: Reading, infoName: string, def: Int32, x: int) {
    match Retrieve(reader, reading, infoName)
    case Success(None) => x == def
    case Success(Some(text)) => x == Coerce(text, def)
    case Failure(_) => false
  }

  /** The total time is reported in whole seconds, truncated; a missing
      `totalTime:` gives 0 (not -1), because -1 / 1000 is 0 in Java. */
  lemma StructuredTotalTimeSeconds(fileName: string, reading: Reading)
    requires ParseStructured(fileName, reading).Success?
    ensures var t := ParseStructured(fileName, reading).value;
            Retrieve(StrictXml, reading, "totalTime:") == Success(None) ==> t.totalTime == 0
    ensures var t := ParseStructured(fileName, reading).value;
            var ms := GetIntOrSentinel(StrictXml, reading, "totalTime:").value;
            ms >= 0 ==> t.totalTime == ms / 1000
    ensures var t := ParseStructured(fileName, reading).value;
            forall ms :: FieldFrom(StrictXml, reading, "totalTime:", -1, ms) ==> t.totalTime == TruncDiv(ms, 1000)
  {
    var ms := GetIntOrSentinel(StrictXml, reading, "totalTime:").value;
    TruncDivSmall(ms, 1000);
  }

  /** The logging-selenium defaults: an absent failure message reads "OK"
      while a present one, even empty, is kept; absent failed commands read
      0; the duration is kept in milliseconds. */
  lemma LoggingFieldsFromLookups(fileName: string, reading: Reading)
    ensures var r := ParseLoggingSeleniumReport(fileName, reading);
            r.Success? ==>
            var t := r.value;
            && (Retrieve(LenientHtml, reading, "last failed message:") == Success(None) ==> t.result == Some("OK"))
            && (forall m :: Retrieve(LenientHtml, reading, "last failed message:") == Success(Some(m)) ==> t.result == Some(m))
            && FieldFrom(LenientHtml, reading, "test-duration [ms]:", -1, t.totalTime)
            && FieldFrom(LenientHtml, reading, "commands processed:", -1, t.numCommandPasses)
            && FieldFrom(LenientHtml, reading, "failed commands:", 0, t.numCommandFailures)
  {
  }

  /** Every logging-selenium record counts exactly one test, a passed one. */
  lemma LoggingTotalIsOne(fileName: string, reading: Reading)
    ensures var r := ParseLoggingSeleniumReport(fileName, reading);
            r.Success? ==> NumTestTotal(r.value) == 1
  {
  }

  /** `getNumTestTotal` is `int` addition: two large structured counts wrap
      around to a negative total. */
  lemma NumTestTotalWraps(fileName: string)
    ensures NumTestTotal(TestResult(fileName, None, 0, INT_MAX, 1, 0, 0, 0)) == INT_MIN
  {
  }

  /** When the strict reader delivers every structured value cell before the
      document turns out malformed (or unreadable), the early exits keep the
      error out of sight: the structured record stands and nothing falls back. */
  lemma MalformedTailAfterAllFields(fileName: string, events: seq<Event>, rest: seq<Event>, ending: Ending, asHtml: Reading)
    requires forall i :: 0 <= i < |StructuredLabels| ==> Run(events, NewHandler(StructuredLabels[i])).Captured?
    ensures Parse(fileName, ReportFile(Delivered(events + rest, ending), asHtml))
         == ParseStructured(fileName, Delivered(events, Complete))
    ensures Parse(fileName, ReportFile(Delivered(events + rest, ending), asHtml)).Success?
  {
    var long := Delivered(events + rest, ending);
    var short := Delivered(events, Complete);
    var L := StructuredLabels;
    forall i | 0 <= i < |L|
      ensures Retrieve(StrictXml, long, L[i]) == Retrieve(StrictXml, short, L[i])
      ensures Retrieve(StrictXml, short, L[i]).Success?
    {
      CapturedIgnoresEnding(StrictXml, events, rest, ending, Complete, L[i]);
    }
    // The forall above, once per label: the solver does not instantiate it
    // at the seven lookups `ParseStructured` makes on its own.
    assert Retrieve(StrictXml, long, L[0]) == Retrieve(StrictXml, short, L[0]);
    assert Retrieve(StrictXml, long, L[1]) == Retrieve(StrictXml, short, L[1]);
    assert Retrieve(StrictXml, long, L[2]) == Retrieve(StrictXml, short, L[2]);
    assert Retrieve(StrictXml, long, L[3]) == Retrieve(StrictXml, short, L[3]);
    assert Retrieve(StrictXml, long, L[4]) == Retrieve(StrictXml, short, L[4]);
    assert Retrieve(StrictXml, long, L[5]) == Retrieve(StrictXml, short, L[5]);
    assert Retrieve(StrictXml, long, L[6]) == Retrieve(StrictXml, short, L[6]);
    StructuredFailsAtFirstFailingLookup(fileName, short);
    assert ParseStructured(fileName, long) == ParseStructured(fileName, short);
  }

  /** When `numTestPasses:` is the only structured label with a value cell
      and that cell reads `7`: seven passed tests, every other count -1, no
      result text, and a total time of 0. */
  lemma OnlyTestPassesFound(fileName: string, reading: Reading)
    requires forall i :: 0 <= i < |StructuredLabels| && i != 2 ==>
               Retrieve(StrictXml, reading, StructuredLabels[i]) == Success(None)
    requires Retrieve(StrictXml, reading, "numTestPasses:") == Success(Some("7"))
    ensures ParseStructured(fileName, reading) == Success(TestResult(fileName, None, 0, 7, -1, -1, -1, -1))
  {
    var L := StructuredLabels;
    assert Retrieve(StrictXml, reading, L[0]) == Success(None);
    assert Retrieve(StrictXml, reading, L[1]) == Success(None);
    assert Retrieve(StrictXml, reading, L[3]) == Success(None);
    assert Retrieve(StrictXml, reading, L[4]) == Success(None);
    assert Retrieve(StrictXml, reading, L[5]) == Success(None);
    assert Retrieve(StrictXml, reading, L[6]) == Success(None);
    assert Coerce("7", -1) == 7 by {
      assert AllDigits("7") && DecimalValue("7") == 7;
    }
    TruncDivSmall(-1, 1000);
  }
}
